=== FILE: README.md ===
# kromaflow core, modelled in Dafny

kromaflow is a browser meme/caption editor. The user loads a photo, picks a colour preset and an
output format (original, square, or 9:16 story), types a top and a bottom caption, and downloads
a PNG. Almost all of `js/script.js` is DOM wiring. This project models the four pieces of pure
logic inside it:

- **Geometry** (`geometry.dfy`): the first half of `drawCanvas`. It caps the decoded image at
  1024 px on its longer side, then picks the canvas size and the draw offset for the format. The
  code never crops a source rectangle. It draws the whole scaled image at a non-positive offset and
  lets the canvas clip it. `ClipIsCentredCrop` proves that the clipped result is the same picture
  a centred source crop would give.
- **Filter** (`filter.dfy`) and **Frame** (`frame.dfy`): the second half of `drawCanvas`.
  - `FilterString` builds the CSS filter string as the template literal does, for filter
    values up to 2^53 in magnitude. A parser reads it back into its stages.
  - `FramePlan` lists one frame as abstract canvas operations. An interpreter tracks the active
    filter through `save`/`restore`, which proves the captions are never filtered.
- **Settings** (`settings.dfy`): the state record, the four presets, preset application,
  reset, and the download guard with its file name.
- **Throttle** (`throttle.dfy`): the `isDrawing`/`drawingScheduled` flags driven by `requestDraw`
  and by the entry and exit of `drawCanvas`.

`decimal.dfy` renders integers the way a template literal does for magnitudes up to 2^53,
and parses them back. `base.dfy`
holds `Option`, `Result`, `Min` and `Max`.

The model follows the code as written, including these behaviours a reader might not expect:

- The code never reports an invalid-dimension error. A zero side flows through JavaScript's
  division: `x/0` is `+Infinity` and `0/0` is `NaN`. `SourceMinQuotient` and `StoryIsWide` write out
  that behaviour, and `ScaleFactorIsSourceMin` shows `ScaleFactor` agrees.
- Square and story do not crop the source. The whole image is drawn at an offset.
- Redraws are not coalesced per animation tick. Every `requestDraw` made while no pass is running
  asks for its own frame (`RequestsWhileIdleQueue`). `drawCanvas` runs to completion, so such
  requests never see `isDrawing` set (`RunToCompletion`). Only requests made during a pass are
  folded into one (`RequestsWhileDrawingFold`).
- An unknown format tag gets the original-size layout, and the download is still named after it.

## Model

| member | source | states |
|---|---|---|
| Geometry.ScaleFactor | js/script.js:53-57 | The scale is in (0, 1]. It is exactly 1 unless a side exceeds 1024. |
| Geometry.ScaleFactorIsSourceMin | js/script.js:55-56 | Beyond the cap, 1024 divided by the longer side equals the source's minimum of 1024/width and 1024/height. A zero side divides to +Infinity there, so the other quotient wins. |
| Geometry.SourceMinQuotient | js/script.js:55-56 | Beyond the cap, the source's `Math.min` of the two quotients lies strictly between 0 and 1. It is 1024 divided by a non-zero side. |
| Geometry.SizeCap | js/script.js:53-60 | Both sides are scaled by one factor, so the aspect ratio is kept. Both scaled sides are at most 1024. Images within the cap are unchanged; larger ones shrink until the longer side is 1024. |
| Geometry.Place | js/script.js:63-89 | Whatever the format tag, the image is drawn at the full scaled size it is given. |
| Geometry.Resolve | js/script.js:59-89 | Every format draws the whole image at its capped size: the draw size is the scaled width and height. |
| Geometry.OriginalLayout | js/script.js:84-89 | Any tag other than "square" or "story", unknown strings included, gives a canvas of the scaled size with the image at offset (0, 0). |
| Geometry.SquareLayout | js/script.js:65-71 | The square canvas side is the shorter scaled side. Both offsets are non-positive, and the image is centred (2·dx + width = side). |
| Geometry.SquareIsLargest | js/script.js:66-68 | No square that fits in the scaled image is bigger than the square canvas. |
| Geometry.StoryIsWide | js/script.js:73-74 | The `w/h > 9/16` test, zero height included (+Infinity or NaN), holds exactly when 16·w > 9·h. |
| Geometry.StoryLayout | js/script.js:72-83 | The story canvas is exactly 9:16 and lies inside the scaled image, touching it on at least one side. Offsets are non-positive and centre the image on both axes. |
| Geometry.StoryIsLargest | js/script.js:72-80 | No 9:16 rectangle that fits in the scaled image is wider than the story canvas. |
| Geometry.ClipIsCentredCrop | js/script.js:63-89 | For every format, the part of the image the canvas shows lies inside the scaled image. It is centred with equal margins and has the canvas's size, so the canvas is fully covered with no letterboxing. |
| Geometry.SquareScenario | js/script.js:53-71 | A 2000×1000 image in square format gives a 512×512 canvas with the image at (-256, 0). |
| Decimal.IntToString | js/script.js:106 | An integer renders as a non-empty string that starts with '-' exactly when the integer is negative. |
| Decimal.IntToStringRoundTrip | js/script.js:106 | An integer written into the filter template parses back to itself. |
| Decimal.IntToStringInjective | js/script.js:106 | Two integers render the same exactly when they are equal. |
| Filter.Stages | js/script.js:101-110 | The stages are brightness, contrast, saturate and sepia with the settings' percentages, in that order. A fifth stage, grayscale at 100, follows exactly when grayscale is on. |
| Filter.FilterString | js/script.js:106-110 | The string always opens with "brightness(". With grayscale on it ends with " grayscale(100%)". |
| Filter.FilterStringIsJoin | js/script.js:106-110 | The template string plus the optional suffix equals the stage texts joined by single spaces. |
| Filter.ChainRoundTrip | js/script.js:106-110 | Any non-empty chain of stages, written as stage texts joined by single spaces, parses back to exactly that chain. |
| Filter.FilterRoundTrip | js/script.js:101-110 | Parsing the filter string gives back exactly the stages, in order, with their values. A grayscale stage is present if and only if grayscale is on. |
| Frame.FontSize | js/script.js:127 | The font size is the largest integer not above a tenth of the canvas width. |
| Frame.LineWidth | js/script.js:123 | The outline width is at least 2 and at least width/150, and equals one of them. |
| Frame.CaptionOps | js/script.js:130-140 | An empty caption draws nothing. A non-empty one is stroked and then filled at the same anchor. |
| Frame.ImageOps | js/script.js:67-128 | The eight operations before the captions. The first resizes the canvas to the layout's size. The only image draw is the sixth, at the layout's offset and size. None of them writes text. |
| Frame.FramePlan | js/script.js:47-140 | Without an image a frame does nothing. With one, it resizes the canvas to the size `Resolve` computes and draws the image at `Resolve`'s offset and size. |
| Frame.Captions | js/script.js:130-140 | Every caption operation writes text and leaves the filter and the save stack alone. |
| Frame.Exec | js/script.js:94-116 | Canvas context semantics: resizing resets the filter to "none" and empties the save stack. Setting the filter keeps the stack. `save` pushes the current filter. `restore` pops the top entry and makes it the filter, and does nothing on an empty stack. Drawing leaves the context alone. |
| Frame.SaveRestore | js/script.js:97-116 | `restore` undoes `save`, whatever filter was set in between. |
| Frame.ImageOpsContext | js/script.js:94-116 | From any leftover context, the image draw runs under the settings' filter string, and after `restore` the filter is "none" with nothing saved. |
| Frame.FilterDiscipline | js/script.js:92-140 | There is one image draw. It runs under the filter chain and comes before every caption operation. Every caption operation runs with the filter "none". The frame ends with no filter and no saved state. |
| Frame.CaptionLayout | js/script.js:121-140 | The caption operations are: the top caption at (W/2, gap), then the bottom caption at (W/2, H - gap). Each is stroked, then filled, and is skipped when empty. gap is a fifth of the font size. The style op before them carries the text colour, black outline, line width, font size and family. |
| Frame.NoCaptionsNoText | js/script.js:130-140 | With both captions empty, a frame contains no text operation. |
| Frame.AnchorsSymmetric | js/script.js:130-140 | With both captions present, the frame's two anchors are horizontally centred. The top one is as far below the top edge as the bottom one is above the bottom edge. That distance is non-negative and at most 2% of the canvas width. |
| Settings.Initial | js/script.js:21-33 | The starting state has no image and empty captions. Its look is the "normal" preset's, and its format is "original". |
| Settings.PresetLook | js/script.js:156-161 | Every preset switches grayscale off. |
| Settings.PresetNameLookup | js/script.js:156-161 | The four keys are distinct, and each finds its own preset. |
| Settings.LookupPreset | js/script.js:156-161 | A tag finds the preset with exactly that name, or nothing when no preset has that name. |
| Settings.ApplyPreset | js/script.js:156-161 | After a preset, brightness, contrast, saturation, sepia and grayscale equal the preset's values. Image, captions, font, colour and format are unchanged. |
| Settings.ApplyPresetNamed | js/script.js:195-198 | A button with an unknown tag leaves the state unchanged. A known tag gives the preset's look, and nothing outside the look changes. |
| Settings.PresetLastWins | js/script.js:197-198 | Applying p and then q is the same as applying q alone. |
| Settings.PresetIdempotent | js/script.js:197-198 | Applying a preset twice is the same as applying it once. |
| Settings.VintageScenario | js/script.js:158 | The "vintage" button sets 90/80/80/60/no grayscale and keeps the captions, font, colour and format. |
| Settings.Reset | js/script.js:215-221 | Reset equals the initial state with only the loaded image carried over. |
| Settings.ResetShowsNormalLook | js/script.js:160 | After a reset the look is the "normal" preset's, so applying "normal" changes nothing. |
| Settings.ResetForgetsHistory | js/script.js:216-221 | Two states reset to the same state if and only if they hold the same image. |
| Settings.ResetIdempotent | js/script.js:216-221 | Resetting twice is the same as resetting once. |
| Settings.DownloadName | js/script.js:234-237 | Export fails exactly when no image is loaded. Otherwise the name is "kromaflow-" followed by the format and ".png". |
| Settings.DownloadNameRoundTrip | js/script.js:237 | The format can be recovered from the downloaded file's name. |
| Throttle.Request | js/script.js:39-45 | While drawing, a request only sets the pending flag and queues no frame. While idle, it queues exactly one frame and changes no flag. |
| Throttle.FrameFires | js/script.js:47-50 | A frame consumes one queued frame. Without an image neither flag changes; with one, a pass is marked running. |
| Throttle.Finish | js/script.js:146-151 | After a pass both flags are down. Exactly one frame is queued if a pass was pending, and none otherwise. |
| Throttle.ImageLoaded | js/script.js:171-172 | Loading an image makes one present and then requests a draw. During a pass that only marks another pass as pending; otherwise it queues exactly one frame. |
| Throttle.StepPreservesInv | js/script.js:36-50 | Every event keeps the invariant "pending implies drawing". |
| Throttle.PlayPreservesInv | js/script.js:36-151 | The invariant holds after any feasible sequence of events. |
| Throttle.RequestsWhileDrawingFold | js/script.js:40-42 | Any number (at least one) of requests during a pass queue nothing. Finishing the pass then queues exactly one frame. |
| Throttle.RequestsWhileIdleQueue | js/script.js:44 | n requests while idle queue n frames; nothing is coalesced. |
| Throttle.Tick | js/script.js:47-152 | A whole `drawCanvas` call from a quiet state consumes one frame and leaves both flags down. |
| Throttle.RunToCompletion | js/script.js:36-152 | With `drawCanvas` running to completion, both flags are down between events. The frames outstanding equal the requests plus loads, minus the frames that have run. |

## Left out

- DOM lookup and event wiring (js/script.js:2-18, 164-193, 199-201, 207-213, 223-231) is left out. The text, slider, colour, grayscale, font and format listeners each assign one field and then call `requestDraw`. Only the loader's call is modelled, as `Throttle.ImageLoaded`.
- `FileReader` and `Image` decoding are host code. An image is reduced to its non-negative width and height (`ImageSize`).
- `requestAnimationFrame` is host scheduling. It appears only as the count of queued frames; when those frames fire is not modelled.
- Pixel effects are foreign browser APIs, so the draws are abstract operations. This covers the filters, `drawImage`, `strokeText`/`fillText`, `clearRect` and `toDataURL`/link click at 238-239. The context interpreter tracks only the filter and its `save`/`restore` stack.
- Numbers are exact reals and integers. IEEE rounding is not modelled. Nor is the browser's truncation of `canvas.width`/`canvas.height` to integers: a fractional story width is kept exact.
- `Math.round` at 101-104 is the identity on the model's integer filter fields. String-valued slider input is not modelled (188-189).
- The font shorthand string (`700 <size>px '<family>', sans-serif`, line 128) is kept as its size and family fields. `lineJoin` and `textAlign` are constants set every frame and are not recorded.
- The try/catch at 92-145 is not modelled: `console.error`, the `canvasPanel` class toggle and the download `alert` have no logic. The model assumes no canvas operation throws. In the source, an exception inside the try would skip the rest of that frame; that path is not modelled. `FilterDiscipline` holds from any leftover context, so the next frame is unaffected.
- Preset tags that name an inherited `Object.prototype` property (e.g. "constructor") are treated like any unknown tag.
- Decimal.IntToString: writes every digit of any integer, which agrees with JavaScript only up to
  2^53 in magnitude, where every integer is an exact double. Above 2^53 JavaScript holds the
  nearest double and prints the shortest digits that round back to it, padded with zeros
  (`${2**64}` is "18446744073709552000"). From 10^21 on it switches to exponent form (`${1e21}`
  is "1e+21"). The initial and preset values are at most 200, far below either bound.
- Settings.ApplyPresetNamed: for an unknown tag, the source throws at line 199 before `requestDraw`. The model records only that the state is unchanged, not the thrown error.
- Throttle.Tick: its contract speaks only of calls that start with both flags down. That is the only way JavaScript's run-to-completion lets `drawCanvas` start. The general case is covered by `Throttle.FrameFires` and `Throttle.Finish`.

=== FILE: base.dfy ===
/** Failure-carrying values shared by the other modules. */
module Base {

  /** An optional value: the model's stand-in for JavaScript's `null`/`undefined`. */
  datatype Option<+T> = None | Some(value: T)

  /** The outcome of an operation that can refuse its input. */
  datatype Result<+T, +E> = Ok(value: T) | Err(error: E)

  function Min(a: real, b: real): (m: real)
    ensures m <= a && m <= b
    ensures m == a || m == b
  {
    if a <= b then a else b
  }

  function Max(a: real, b: real): (m: real)
    ensures a <= m && b <= m
    ensures m == a || m == b
  {
    if a >= b then a else b
  }
}

=== FILE: decimal.dfy ===
/**
 * Decimal rendering of integers, as JavaScript's template literals render an
 * integral number (`${n}`), together with a parser that undoes it.
 */
module Decimal {
  import opened Base

  predicate IsDigit(c: char) {
    '0' <= c <= '9'
  }

  predicate AllDigits(s: string) {
    forall i :: 0 <= i < |s| ==> IsDigit(s[i])
  }

  function DigitChar(d: int): (c: char)
    requires 0 <= d < 10
    ensures IsDigit(c)
  {
    (48 + d) as char
  }

  function DigitValue(c: char): (d: nat)
    requires IsDigit(c)
    ensures d < 10
  {
    c as int - 48
  }

  /** The digits of `n`, most significant first, without leading zeros. */
  function NatToString(n: nat): (s: string)
    ensures |s| >= 1 && IsDigit(s[0])
    decreases n
  {
    if n < 10 then [DigitChar(n)] else NatToString(n / 10) + [DigitChar(n % 10)]
  }

  /**
   * How an integral JavaScript number of magnitude up to 2^53 appears inside
   * a template literal: an optional minus sign and its decimal digits.
   */
  function IntToString(i: int): (s: string)
    ensures |s| >= 1
    ensures i < 0 <==> s[0] == '-'
  {
    if i < 0 then "-" + NatToString(-i) else NatToString(i)
  }

  /** The value of a non-empty run of decimal digits. */
  function ParseNat(s: string): nat
    requires |s| >= 1 && AllDigits(s)
    decreases |s|
  {
    if |s| == 1 then DigitValue(s[0])
    else ParseNat(s[..|s| - 1]) * 10 + DigitValue(s[|s| - 1])
  }

  /** Reads an optionally negated run of decimal digits; anything else is `None`. */
  function ParseInt(s: string): Option<int> {
    if |s| == 0 then None
    else if s[0] == '-' then
      if |s| >= 2 && AllDigits(s[1..]) then Some(0 - ParseNat(s[1..])) else None
    else if AllDigits(s) then Some(ParseNat(s))
    else None
  }

  /** The rendering is a run of digits with no leading zero. */
  lemma {:induction false} NatToStringDigits(n: nat)
    ensures AllDigits(NatToString(n))
    ensures |NatToString(n)| > 1 ==> NatToString(n)[0] != '0'
    decreases n
  {
    if n >= 10 {
      NatToStringDigits(n / 10);
    }
  }

  /** Only digits and a leading minus sign appear in a rendered integer. */
  lemma IntToStringChars(i: int)
    ensures forall k :: 0 <= k < |IntToString(i)| ==> IntToString(i)[k] == '-' || IsDigit(IntToString(i)[k])
  {
    if i < 0 {
      NatToStringDigits(-i);
    } else {
      NatToStringDigits(i);
    }
  }

  lemma {:induction false} ParseNatToString(n: nat)
    ensures AllDigits(NatToString(n))
    ensures ParseNat(NatToString(n)) == n
    decreases n
  {
    NatToStringDigits(n);
    if n >= 10 {
      var s := NatToString(n);
      assert s[..|s| - 1] == NatToString(n / 10);
      ParseNatToString(n / 10);
    }
  }

  /** Rendering loses nothing: the parser recovers every integer. */
  lemma IntToStringRoundTrip(i: int)
    ensures ParseInt(IntToString(i)) == Some(i)
  {
    var s := IntToString(i);
    if i < 0 {
      var digits := NatToString(-i);
      assert s[1..] == digits;
      ParseNatToString(-i);
    } else {
      ParseNatToString(i);
    }
  }

  /** Distinct integers render as distinct strings. */
  lemma IntToStringInjective(i: int, j: int)
    ensures IntToString(i) == IntToString(j) <==> i == j
  {
    if IntToString(i) == IntToString(j) {
      IntToStringRoundTrip(i);
      IntToStringRoundTrip(j);
    }
  }
}

=== FILE: filter.dfy ===
/**
 * The CSS filter chain handed to the canvas before the image is drawn:
 * brightness, contrast, saturate, sepia, then grayscale when it is switched
 * on. A parser reads the string back, which shows that the string carries
 * exactly the stages, in order, with their percentages.
 */
module Filter {
  import opened Base
  import opened Decimal
  import opened Settings

  /** One stage of the chain with its integral percentage. */
  datatype Stage =
    | Brightness(pct: int)
    | Contrast(pct: int)
    | Saturate(pct: int)
    | Sepia(pct: int)
    | Grayscale(pct: int)

  /** The canvas filter value meaning "no filter". */
  const NoFilter: string := "none"

  /** The stages the settings ask for, in application order. */
  function Stages(s: Settings): (r: seq<Stage>)
    ensures |r| == if s.grayscale then 5 else 4
    ensures r[0] == Brightness(s.brightness) && r[1] == Contrast(s.contrast)
    ensures r[2] == Saturate(s.saturation) && r[3] == Sepia(s.sepia)
    ensures s.grayscale ==> r[4] == Grayscale(100)
  {
    LeadingStages(s) + (if s.grayscale then [Grayscale(100)] else [])
  }

  /** The four stages every chain starts with. */
  function LeadingStages(s: Settings): seq<Stage> {
    [Brightness(s.brightness), Contrast(s.contrast), Saturate(s.saturation), Sepia(s.sepia)]
  }

  /** The CSS function name of a stage with its opening parenthesis. */
  function StageOpen(st: Stage): string {
    match st
    case Brightness(_) => "brightness("
    case Contrast(_) => "contrast("
    case Saturate(_) => "saturate("
    case Sepia(_) => "sepia("
    case Grayscale(_) => "grayscale("
  }

  /** `name(n%)`. */
  function StageText(st: Stage): string {
    StageOpen(st) + IntToString(st.pct) + "%)"
  }

  /** The text of the first four stages, spelt as the template literal spells it. */
  function LeadingText(s: Settings): string {
    "brightness(" + IntToString(s.brightness) + "%) contrast(" + IntToString(s.contrast)
      + "%) saturate(" + IntToString(s.saturation) + "%) sepia(" + IntToString(s.sepia) + "%)"
  }

  /**
   * The filter string as the template literal and the grayscale suffix build it.
   * It always opens with the brightness stage; with grayscale on it closes with
   * the grayscale stage.
   */
  function FilterString(s: Settings): (f: string)
    ensures |f| > 11 && f[..11] == "brightness("
    ensures s.grayscale ==> |f| >= 16 && f[|f| - 16..] == " grayscale(100%)"
  {
    var base := LeadingText(s);
    if s.grayscale then base + " grayscale(100%)" else base
  }

  // ---------------------------------------------------------------------------
  // Reading a chain back

  /** `parts` glued together with `sep` between neighbours. */
  function Join(parts: seq<string>, sep: char): string
    requires |parts| >= 1
  {
    if |parts| == 1 then parts[0] else parts[0] + [sep] + Join(parts[1..], sep)
  }

  /** The maximal `sep`-free pieces of `s`; the inverse of `Join`. */
  function Split(s: string, sep: char): (r: seq<string>)
    ensures |r| >= 1
    decreases |s|
  {
    if |s| == 0 then [""]
    else
      var rest := Split(s[1..], sep);
      if s[0] == sep then [""] + rest else [[s[0]] + rest[0]] + rest[1..]
  }

  /** Reads `name(n%)` for one given opening `name(`. */
  function ParseNamed(t: string, open: string): Option<int> {
    if |t| >= |open| + 2 && t[..|open|] == open && t[|t| - 2..] == "%)"
    then ParseInt(t[|open|..|t| - 2])
    else None
  }

  function ParseStage(t: string): Option<Stage> {
    match ParseNamed(t, "brightness(")
    case Some(n) => Some(Brightness(n))
    case None =>
      match ParseNamed(t, "contrast(")
      case Some(n) => Some(Contrast(n))
      case None =>
        match ParseNamed(t, "saturate(")
        case Some(n) => Some(Saturate(n))
        case None =>
          match ParseNamed(t, "sepia(")
          case Some(n) => Some(Sepia(n))
          case None =>
            match ParseNamed(t, "grayscale(")
            case Some(n) => Some(Grayscale(n))
            case None => None
  }

  function ParseStages(parts: seq<string>): Option<seq<Stage>> {
    if |parts| == 0 then Some([])
    else
      match ParseStage(parts[0])
      case None => None
      case Some(st) =>
        match ParseStages(parts[1..])
        case None => None
        case Some(rest) => Some([st] + rest)
  }

  /** Reads a space-separated filter chain back into its stages. */
  function ParseFilter(f: string): Option<seq<Stage>> {
    ParseStages(Split(f, ' '))
  }

  function Texts(stages: seq<Stage>): (r: seq<string>)
    ensures |r| == |stages|
  {
    seq(|stages|, i requires 0 <= i < |stages| => StageText(stages[i]))
  }

  // ---------------------------------------------------------------------------
  // Round trip

  predicate NoSep(w: string, sep: char) {
    forall i :: 0 <= i < |w| ==> w[i] != sep
  }

  lemma {:induction false} SplitNoSep(w: string, sep: char)
    requires NoSep(w, sep)
    ensures Split(w, sep) == [w]
    decreases |w|
  {
    if |w| > 0 {
      SplitNoSep(w[1..], sep);
      assert [w[0]] + w[1..] == w;
    }
  }

  lemma {:induction false} SplitAfterPiece(w: string, sep: char, tail: string)
    requires NoSep(w, sep)
    ensures Split(w + [sep] + tail, sep) == [w] + Split(tail, sep)
    decreases |w|
  {
    var s := w + [sep] + tail;
    if |w| == 0 {
      assert s[1..] == tail;
    } else {
      assert s[1..] == w[1..] + [sep] + tail;
      SplitAfterPiece(w[1..], sep, tail);
      assert [w[0]] + w[1..] == w;
    }
  }

  /** Splitting undoes joining when no piece contains the separator. */
  lemma {:induction false} SplitJoin(parts: seq<string>, sep: char)
    requires |parts| >= 1
    requires forall i :: 0 <= i < |parts| ==> NoSep(parts[i], sep)
    ensures Split(Join(parts, sep), sep) == parts
    decreases |parts|
  {
    if |parts| == 1 {
      SplitNoSep(parts[0], sep);
    } else {
      SplitAfterPiece(parts[0], sep, Join(parts[1..], sep));
      SplitJoin(parts[1..], sep);
    }
  }

  lemma StageTextHasNoSpace(st: Stage)
    ensures NoSep(StageText(st), ' ')
  {
    IntToStringChars(st.pct);
  }

  lemma NamedPrefix(open: string, n: int)
    ensures ParseNamed(open + IntToString(n) + "%)", open) == Some(n)
  {
    var t := open + IntToString(n) + "%)";
    assert t[..|open|] == open;
    assert t[|t| - 2..] == "%)";
    assert t[|open|..|t| - 2] == IntToString(n);
    IntToStringRoundTrip(n);
  }

  lemma NotNamed(t: string, open: string, k: nat)
    requires k < |open| && k < |t| && t[k] != open[k]
    ensures ParseNamed(t, open) == None
  {
  }

  /** Every stage reads back as itself. */
  lemma ParseStageText(st: Stage)
    ensures ParseStage(StageText(st)) == Some(st)
  {
    var t := StageText(st);
    NamedPrefix(StageOpen(st), st.pct);
    match st
    case Brightness(_) =>
    case Contrast(_) =>
      NotNamed(t, "brightness(", 0);
    case Saturate(_) =>
      NotNamed(t, "brightness(", 0);
      NotNamed(t, "contrast(", 0);
    case Sepia(_) =>
      NotNamed(t, "brightness(", 0);
      NotNamed(t, "contrast(", 0);
      NotNamed(t, "saturate(", 1);
    case Grayscale(_) =>
      NotNamed(t, "brightness(", 0);
      NotNamed(t, "contrast(", 0);
      NotNamed(t, "saturate(", 0);
      NotNamed(t, "sepia(", 0);
  }

  /** Pieces that each read back as the matching stage read back as the whole list. */
  lemma {:induction false} ParseStagesPointwise(parts: seq<string>, stages: seq<Stage>)
    requires |parts| == |stages|
    requires forall i :: 0 <= i < |parts| ==> ParseStage(parts[i]) == Some(stages[i])
    ensures ParseStages(parts) == Some(stages)
    decreases |parts|
  {
    if |parts| > 0 {
      ParseStagesPointwise(parts[1..], stages[1..]);
      assert [stages[0]] + stages[1..] == stages;
    }
  }

  lemma {:induction false} JoinStep(parts: seq<string>, sep: char)
    requires |parts| >= 2
    ensures Join(parts, sep) == parts[0] + [sep] + Join(parts[1..], sep)
  {
  }

  lemma JoinFour(t0: string, t1: string, t2: string, t3: string)
    ensures Join([t0, t1, t2, t3], ' ') == t0 + " " + t1 + " " + t2 + " " + t3
  {
    var ts := [t0, t1, t2, t3];
    JoinStep(ts, ' ');
    JoinStep(ts[1..], ' ');
    JoinStep(ts[2..], ' ');
    assert ts[1..][1..][1..] == [t3];
  }

  /**
   * The separators of the template literal are a stage's close, a space, and
   * the next stage's open. Kept apart so that the literal comparison is made
   * with nothing else in scope.
   */
  lemma TemplateSeparators()
    ensures "%) contrast(" == "%)" + " " + "contrast("
    ensures "%) saturate(" == "%)" + " " + "saturate("
    ensures "%) sepia(" == "%)" + " " + "sepia("
  {
  }

  lemma TemplateIsJoin(b: string, c: string, sa: string, sp: string)
    ensures "brightness(" + b + "%) contrast(" + c + "%) saturate(" + sa + "%) sepia(" + sp + "%)"
         == Join(["brightness(" + b + "%)", "contrast(" + c + "%)",
                  "saturate(" + sa + "%)", "sepia(" + sp + "%)"], ' ')
  {
    TemplateSeparators();
    JoinFour("brightness(" + b + "%)", "contrast(" + c + "%)", "saturate(" + sa + "%)", "sepia(" + sp + "%)");
  }

  lemma LeadingTextIsJoin(s: Settings)
    ensures LeadingText(s) == Join(Texts(LeadingStages(s)), ' ')
  {
    var b, c, sa, sp := IntToString(s.brightness), IntToString(s.contrast),
      IntToString(s.saturation), IntToString(s.sepia);
    var ts := Texts(LeadingStages(s));
    assert ts == [StageText(Brightness(s.brightness)), StageText(Contrast(s.contrast)),
                  StageText(Saturate(s.saturation)), StageText(Sepia(s.sepia))];
    TemplateIsJoin(b, c, sa, sp);
  }

  lemma {:induction false} JoinSnoc(parts: seq<string>, last: string, sep: char)
    requires |parts| >= 1
    ensures Join(parts + [last], sep) == Join(parts, sep) + [sep] + last
    decreases |parts|
  {
    if |parts| >= 2 {
      assert (parts + [last])[1..] == parts[1..] + [last];
      JoinSnoc(parts[1..], last, sep);
    } else {
      assert (parts + [last])[1..] == [last];
    }
  }

  lemma GrayscaleText()
    ensures StageText(Grayscale(100)) == "grayscale(100%)"
  {
    assert NatToString(1) == "1";
    assert NatToString(10) == "10";
    assert IntToString(100) == "100";
  }

  lemma TextsAppend(a: seq<Stage>, b: seq<Stage>)
    ensures Texts(a + b) == Texts(a) + Texts(b)
  {
  }

  /** The space-prefixed suffix, compared as a literal with nothing else in scope. */
  lemma SpacedGrayscale()
    ensures [' '] + "grayscale(100%)" == " grayscale(100%)"
  {
  }

  /** The string the source builds is the stage texts separated by single spaces. */
  lemma FilterStringIsJoin(s: Settings)
    ensures FilterString(s) == Join(Texts(Stages(s)), ' ')
  {
    LeadingTextIsJoin(s);
    if s.grayscale {
      var lead := Texts(LeadingStages(s));
      TextsAppend(LeadingStages(s), [Grayscale(100)]);
      GrayscaleText();
      SpacedGrayscale();
      assert Texts(Stages(s)) == lead + ["grayscale(100%)"];
      AppendPiece(lead, LeadingText(s), "grayscale(100%)", " grayscale(100%)");
    } else {
      assert Stages(s) == LeadingStages(s);
    }
  }

  lemma AppendPiece(lead: seq<string>, text: string, last: string, spaced: string)
    requires |lead| >= 1 && Join(lead, ' ') == text && spaced == [' '] + last
    ensures Join(lead + [last], ' ') == text + spaced
  {
    JoinSnoc(lead, last, ' ');
  }

  /**
   * The filter string holds exactly the requested stages in the fixed order
   * brightness, contrast, saturate, sepia, and a grayscale stage if and only
   * if grayscale is switched on.
   */
  lemma FilterRoundTrip(s: Settings)
    ensures ParseFilter(FilterString(s)) == Some(Stages(s))
    ensures s.grayscale <==> Grayscale(100) in ParseFilter(FilterString(s)).value
  {
    FilterStringIsJoin(s);
    ChainRoundTrip(Stages(s));
  }

  /** Any non-empty chain, written out with single spaces, reads back as itself. */
  lemma ChainRoundTrip(stages: seq<Stage>)
    requires |stages| >= 1
    ensures ParseFilter(Join(Texts(stages), ' ')) == Some(stages)
  {
    var ts := Texts(stages);
    forall i | 0 <= i < |ts|
      ensures NoSep(ts[i], ' ') && ParseStage(ts[i]) == Some(stages[i])
    {
      StageTextHasNoSpace(stages[i]);
      ParseStageText(stages[i]);
    }
    SplitJoin(ts, ' ');
    ParseStagesPointwise(ts, stages);
  }
}

=== FILE: frame.dfy ===
/**
 * One pass of `drawCanvas` as an ordered list of abstract canvas operations,
 * and an interpreter for the one piece of context state that matters to its
 * correctness: the active filter with its `save`/`restore` stack.
 */
module Frame {
  import opened Base
  import opened Geometry
  import opened Settings
  import opened Filter

  datatype Baseline = TopEdge | BottomEdge

  /** Text attributes set once before the captions are drawn. */
  datatype TextStyle = TextStyle(
    fillColor: string,
    strokeColor: string,
    lineWidth: real,
    fontSize: int,
    fontFamily: string)

  datatype DrawOp =
    | Resize(w: real, h: real)                       // assigning canvas.width / canvas.height
    | SetFilter(filter: string)
    | ClearRect(w: real, h: real)
    | Save
    | Restore
    | DrawImage(dx: real, dy: real, dW: real, dH: real)
    | SetTextStyle(style: TextStyle)
    | StrokeText(text: string, x: real, y: real, baseline: Baseline)
    | FillText(text: string, x: real, y: real, baseline: Baseline)

  predicate IsText(op: DrawOp) {
    op.StrokeText? || op.FillText?
  }

  /** Caption font size in pixels: a tenth of the canvas width, rounded down. */
  function FontSize(canvasW: real): (fs: int)
    ensures fs as real <= canvasW * 0.1 < fs as real + 1.0
  {
    (canvasW * 0.1).Floor
  }

  /** Outline width: at least 2 px, growing with the canvas past 300 px. */
  function LineWidth(canvasW: real): (lw: real)
    ensures lw >= 2.0 && lw >= canvasW / 150.0
    ensures lw == 2.0 || lw == canvasW / 150.0
  {
    Max(2.0, canvasW / 150.0)
  }

  /** The gap between a caption and its edge of the canvas. */
  function EdgeGap(fontSize: int): real {
    fontSize as real * 0.2
  }

  function StyleFor(s: Settings, canvasW: real): TextStyle {
    TextStyle(s.textColor, "black", LineWidth(canvasW), FontSize(canvasW), s.fontFamily)
  }

  /** An empty caption draws nothing; otherwise an outline, then the fill on top of it. */
  function CaptionOps(text: string, x: real, y: real, baseline: Baseline): (ops: seq<DrawOp>)
    ensures text == "" ==> ops == []
    ensures text != "" ==>
      |ops| == 2 && ops[0] == StrokeText(text, x, y, baseline) && ops[1] == FillText(text, x, y, baseline)
  {
    if text == "" then [] else [StrokeText(text, x, y, baseline), FillText(text, x, y, baseline)]
  }

  /**
   * The operations before the captions: resize, clear, filtered image draw,
   * text style. The canvas takes the layout's size and the single image draw
   * uses the layout's rectangle; none of these operations writes text.
   */
  function ImageOps(filter: string, g: Layout, style: TextStyle): (ops: seq<DrawOp>)
    ensures |ops| == 8
    ensures ops[0] == Resize(g.canvasW, g.canvasH)
    ensures ops[5] == DrawImage(g.dx, g.dy, g.dW, g.dH)
    ensures forall i :: 0 <= i < |ops| && ops[i].DrawImage? ==> i == 5
    ensures forall i :: 0 <= i < |ops| ==> !IsText(ops[i])
  {
    [ Resize(g.canvasW, g.canvasH),
      SetFilter(NoFilter),
      ClearRect(g.canvasW, g.canvasH),
      Save,
      SetFilter(filter),
      DrawImage(g.dx, g.dy, g.dW, g.dH),
      Restore,
      SetTextStyle(style) ]
  }

  /** Everything one call of `drawCanvas` does to the canvas. Without an image it does nothing. */
  function FramePlan(s: Settings): (ops: seq<DrawOp>)
    ensures s.image.None? ==> ops == []
    ensures s.image.Some? ==> |ops| >= 8
    ensures s.image.Some? ==>
      var g := Resolve(s.image.value, s.format);
      && ops[0] == Resize(g.canvasW, g.canvasH)
      && ops[5] == DrawImage(g.dx, g.dy, g.dW, g.dH)
  {
    match s.image
    case None => []
    case Some(img) =>
      var g := Resolve(img, s.format);
      ImageOps(FilterString(s), g, StyleFor(s, g.canvasW)) + Captions(s, g)
  }

  /** The top caption hanging below the top edge, then the bottom caption standing on the bottom edge. */
  function Captions(s: Settings, g: Layout): (ops: seq<DrawOp>)
    ensures forall k :: 0 <= k < |ops| ==> Inert(ops[k]) && IsText(ops[k])
  {
    var gap := EdgeGap(FontSize(g.canvasW));
    CaptionOps(s.topText, g.canvasW / 2.0, gap, TopEdge)
    + CaptionOps(s.bottomText, g.canvasW / 2.0, g.canvasH - gap, BottomEdge)
  }

  // ---------------------------------------------------------------------------
  // Context state

  /** The filter in force and the filters saved by `save`. */
  datatype Context = Context(filter: string, saved: seq<string>)

  /**
   * Resizing a canvas resets its context to the defaults; `restore` with
   * nothing saved does nothing; drawing operations leave the state alone.
   */
  function Exec(c: Context, op: DrawOp): (r: Context)
    ensures op.Resize? ==> r == Context(NoFilter, [])
    ensures Inert(op) ==> r == c
    ensures op.SetFilter? ==> r.filter == op.filter && r.saved == c.saved
    ensures op.Save? ==> r.filter == c.filter && r.saved == c.saved + [c.filter]
    ensures op.Restore? && |c.saved| == 0 ==> r == c
    ensures op.Restore? && |c.saved| > 0 ==>
      r.filter == c.saved[|c.saved| - 1] && r.saved == c.saved[..|c.saved| - 1]
  {
    match op
    case Resize(_, _) => Context(NoFilter, [])
    case SetFilter(f) => c.(filter := f)
    case Save => c.(saved := c.saved + [c.filter])
    case Restore =>
      if |c.saved| == 0 then c
      else Context(c.saved[|c.saved| - 1], c.saved[..|c.saved| - 1])
    case _ => c
  }

  /** `restore` undoes `save`, whatever the filter was set to in between. */
  lemma SaveRestore(c: Context, f: string)
    ensures Exec(Exec(Exec(c, Save), SetFilter(f)), Restore) == c
  {
    var saved := Exec(c, Save);
    assert saved.saved[..|saved.saved| - 1] == c.saved;
  }

  function Run(c: Context, ops: seq<DrawOp>): Context
    decreases |ops|
  {
    if |ops| == 0 then c else Run(Exec(c, ops[0]), ops[1..])
  }

  /** The filter in force when `ops[i]` executes, starting from context `c`. */
  function FilterAt(c: Context, ops: seq<DrawOp>, i: nat): string
    requires i <= |ops|
  {
    Run(c, ops[..i]).filter
  }

  /** Operations that leave the tracked context untouched. */
  predicate Inert(op: DrawOp) {
    !(op.Resize? || op.SetFilter? || op.Save? || op.Restore?)
  }

  /**
   * One step of the interpreter, stated once so that the walk through the
   * image operations can take it without unfolding `Run` in a large context.
   */
  lemma RunStep(c: Context, ops: seq<DrawOp>)
    requires |ops| > 0
    ensures Run(c, ops) == Run(Exec(c, ops[0]), ops[1..])
    ensures ops[1..] == [] ==> Run(c, ops) == Exec(c, ops[0])
  {
  }

  lemma {:induction false} RunAppend(c: Context, a: seq<DrawOp>, b: seq<DrawOp>)
    ensures Run(c, a + b) == Run(Run(c, a), b)
    decreases |a|
  {
    if |a| > 0 {
      assert (a + b)[1..] == a[1..] + b;
      RunAppend(Exec(c, a[0]), a[1..], b);
    } else {
      assert a + b == b;
    }
  }

  lemma {:induction false} RunInert(c: Context, ops: seq<DrawOp>)
    requires forall i :: 0 <= i < |ops| ==> Inert(ops[i])
    ensures Run(c, ops) == c
    decreases |ops|
  {
    if |ops| > 0 {
      RunInert(c, ops[1..]);
    }
  }

  /** Whatever state an earlier frame left behind, the image part ends with no filter and nothing saved. */
  lemma ImageOpsContext(filter: string, g: Layout, style: TextStyle, c: Context)
    ensures Run(c, ImageOps(filter, g, style)[..5]).filter == filter
    ensures Run(c, ImageOps(filter, g, style)) == Context(NoFilter, [])
  {
    var ops := ImageOps(filter, g, style);
    var clean := Context(NoFilter, []);
    var saved := Context(NoFilter, [NoFilter]);
    var filtered := Context(filter, [NoFilter]);
    var pre := ops[..5];
    RunStep(c, pre);
    assert pre[1..] == ops[1..5];
    RunStep(clean, ops[1..5]);
    assert ops[1..5][1..] == ops[2..5];
    RunStep(clean, ops[2..5]);
    assert ops[2..5][1..] == ops[3..5];
    RunStep(clean, ops[3..5]);
    assert ops[3..5][1..] == ops[4..5];
    RunStep(saved, ops[4..5]);
    assert Run(c, pre) == filtered;
    RunStep(filtered, ops[5..]);
    assert ops[5..][1..] == ops[6..];
    RunStep(filtered, ops[6..]);
    assert ops[6..][1..] == ops[7..];
    RunStep(clean, ops[7..]);
    assert Run(filtered, ops[5..]) == clean;
    assert ops == pre + ops[5..];
    RunAppend(c, pre, ops[5..]);
  }

  /** Running `head` and then operations that touch no context state, prefix by prefix. */
  lemma InertTail(c: Context, head: seq<DrawOp>, tail: seq<DrawOp>, i: nat)
    requires forall k :: 0 <= k < |tail| ==> Inert(tail[k])
    requires |head| <= i <= |head| + |tail|
    ensures Run(c, (head + tail)[..i]) == Run(c, head)
  {
    assert (head + tail)[..i] == head + tail[..i - |head|];
    RunAppend(c, head, tail[..i - |head|]);
    RunInert(Run(c, head), tail[..i - |head|]);
  }

  /**
   * The filter discipline of any frame made of the image operations followed by
   * text operations that touch no context state.
   */
  lemma HeadThenTextDiscipline(f: string, g: Layout, style: TextStyle, captions: seq<DrawOp>, c: Context)
    requires forall k :: 0 <= k < |captions| ==> Inert(captions[k]) && IsText(captions[k])
    ensures var ops := ImageOps(f, g, style) + captions;
      && ops[5].DrawImage?
      && FilterAt(c, ops, 5) == f
      && (forall i :: 0 <= i < |ops| && ops[i].DrawImage? ==> i == 5)
      && (forall i :: 0 <= i < |ops| && IsText(ops[i]) ==> 5 < i && FilterAt(c, ops, i) == NoFilter)
      && Run(c, ops) == Context(NoFilter, [])
  {
    var head := ImageOps(f, g, style);
    var ops := head + captions;
    assert ops[..5] == head[..5];
    ImageOpsContext(f, g, style, c);
    forall i | 0 <= i < |ops| && IsText(ops[i])
      ensures 5 < i && FilterAt(c, ops, i) == NoFilter
    {
      InertTail(c, head, captions, i);
    }
    InertTail(c, head, captions, |ops|);
    assert ops[..|ops|] == ops;
  }

  /**
   * The filter discipline of one frame, from any starting context: the single
   * image draw runs under the settings' filter chain, every caption operation
   * comes after it and runs with no filter, and the frame leaves no filter and
   * no saved state behind.
   */
  lemma FilterDiscipline(s: Settings, c: Context)
    requires s.image.Some?
    ensures var ops := FramePlan(s);
      && ops[5].DrawImage?
      && FilterAt(c, ops, 5) == FilterString(s)
      && (forall i :: 0 <= i < |ops| && ops[i].DrawImage? ==> i == 5)
      && (forall i :: 0 <= i < |ops| && IsText(ops[i]) ==> 5 < i && FilterAt(c, ops, i) == NoFilter)
      && Run(c, ops) == Context(NoFilter, [])
  {
    var g := Resolve(s.image.value, s.format);
    HeadThenTextDiscipline(FilterString(s), g, StyleFor(s, g.canvasW), Captions(s, g), c);
  }

  /**
   * The captions: each non-empty caption is outlined and then filled,
   * horizontally centred; the top one hangs a fifth of the font size below the
   * top edge, the bottom one sits the same distance above the bottom edge.
   * Empty captions draw nothing.
   */
  lemma CaptionLayout(s: Settings)
    requires s.image.Some?
    ensures var ops := FramePlan(s);
      var g := Resolve(s.image.value, s.format);
      var gap := EdgeGap(FontSize(g.canvasW));
      var top := if s.topText == "" then [] else
        [StrokeText(s.topText, g.canvasW / 2.0, gap, TopEdge), FillText(s.topText, g.canvasW / 2.0, gap, TopEdge)];
      var bottom := if s.bottomText == "" then [] else
        [StrokeText(s.bottomText, g.canvasW / 2.0, g.canvasH - gap, BottomEdge),
         FillText(s.bottomText, g.canvasW / 2.0, g.canvasH - gap, BottomEdge)];
      && ops[8..] == top + bottom
      && ops[7] == SetTextStyle(TextStyle(s.textColor, "black", LineWidth(g.canvasW), FontSize(g.canvasW), s.fontFamily))
      && (forall i :: 0 <= i < 8 ==> !IsText(ops[i]))
  {
  }

  /** With both captions empty a frame draws the image and no text at all. */
  lemma NoCaptionsNoText(s: Settings)
    requires s.image.Some? && s.topText == "" && s.bottomText == ""
    ensures forall i :: 0 <= i < |FramePlan(s)| ==> !IsText(FramePlan(s)[i])
    ensures |FramePlan(s)| == 8
  {
  }

  /**
   * With both captions present, the two anchors the frame emits are mirror
   * images: both horizontally centred, the top one as far below the top edge
   * as the bottom one is above the bottom edge. The mirroring follows from
   * both anchors using the same gap; the content is that the gap is
   * non-negative and at most 2% of the canvas width.
   */
  lemma AnchorsSymmetric(s: Settings)
    requires s.image.Some? && s.topText != "" && s.bottomText != ""
    ensures var ops := FramePlan(s);
      var g := Resolve(s.image.value, s.format);
      && |ops| == 12 && ops[8].StrokeText? && ops[10].StrokeText?
      && ops[8].x == g.canvasW / 2.0 && ops[10].x == g.canvasW / 2.0
      && ops[8].y == g.canvasH - ops[10].y
      && 0.0 <= ops[8].y <= g.canvasW * 0.02
  {
    var g := Resolve(s.image.value, s.format);
    ClipIsCentredCrop(s.image.value, s.format);
    var ops := FramePlan(s);
    var caps := Captions(s, g);
    assert ops == ImageOps(FilterString(s), g, StyleFor(s, g.canvasW)) + caps;
    assert ops[8] == caps[0] && ops[10] == caps[2];
  }
}

=== FILE: geometry.dfy ===
/**
 * The geometry block of `drawCanvas`: caps the decoded image at 1024 px on its
 * longer side, then sizes the canvas for the requested format and places the
 * whole scaled image at an offset that centres it. The canvas clips whatever
 * falls outside; no source rectangle is ever cropped.
 */
module Geometry {
  import opened Base

  /** A length in pixels; decoded images never have negative sides. */
  type Dim = x: real | 0.0 <= x

  datatype ImageSize = ImageSize(width: Dim, height: Dim)

  /** Canvas size, draw offset and draw size for one frame. */
  datatype Layout = Layout(canvasW: real, canvasH: real, dx: real, dy: real, dW: real, dH: real)

  /** An axis-aligned rectangle in scaled-image coordinates. */
  datatype Rect = Rect(x: real, y: real, w: real, h: real)

  const MaxSize: real := 1024.0

  /** The 9:16 portrait ratio of the 'story' format. */
  const StoryRatio: real := 9.0 / 16.0

  /**
   * The factor applied to both sides: 1 within the cap, otherwise 1024 over
   * the longer side. `SourceMinQuotient` is the expression the source writes;
   * `ScaleFactorIsSourceMin` shows the two agree.
   */
  function ScaleFactor(w: Dim, h: Dim): (s: real)
    ensures 0.0 < s <= 1.0
    ensures !(w > MaxSize || h > MaxSize) ==> s == 1.0
  {
    if w > MaxSize || h > MaxSize then MaxSize / Max(w, h) else 1.0
  }

  /**
   * `Math.min(1024 / width, 1024 / height)` when a side exceeds the cap; a zero
   * side divides to +Infinity there, so the other quotient wins.
   */
  function SourceMinQuotient(w: Dim, h: Dim): (q: real)
    requires w > MaxSize || h > MaxSize
    ensures 0.0 < q < 1.0
    ensures (w > 0.0 && q == MaxSize / w) || (h > 0.0 && q == MaxSize / h)
  {
    if w == 0.0 then MaxSize / h
    else if h == 0.0 then MaxSize / w
    else Min(MaxSize / w, MaxSize / h)
  }

  /** Dividing the cap by the longer side is what the source's minimum of two quotients computes. */
  lemma ScaleFactorIsSourceMin(w: Dim, h: Dim)
    requires w > MaxSize || h > MaxSize
    ensures ScaleFactor(w, h) == SourceMinQuotient(w, h)
  {
    if w > 0.0 && h > 0.0 {
      if w >= h {
        assert MaxSize / w <= MaxSize / h by { DivideLarger(MaxSize, h, w); }
      } else {
        assert MaxSize / h <= MaxSize / w by { DivideLarger(MaxSize, w, h); }
      }
    }
  }

  lemma DivideLarger(a: real, x: real, y: real)
    requires a > 0.0 && 0.0 < x <= y
    ensures a / y <= a / x
  {
    assert (a / y) * y == a == (a / x) * x;
    assert (a / y) * x <= (a / y) * y;
  }

  /**
   * JavaScript's `(tw / th) > 9/16` on non-negative numbers: a zero height
   * makes the quotient +Infinity (true when tw > 0) or NaN (false when tw == 0).
   */
  function StoryIsWide(tw: real, th: real): (wide: bool)
    requires tw >= 0.0 && th >= 0.0
    ensures wide <==> 16.0 * tw > 9.0 * th
  {
    if th == 0.0 then tw > 0.0
    else
      QuotientAboveRatio(tw, th);
      tw / th > StoryRatio
  }

  /** For a positive height, the quotient test is the cross-multiplied comparison. */
  lemma QuotientAboveRatio(tw: real, th: real)
    requires th > 0.0
    ensures tw / th > StoryRatio <==> 16.0 * tw > 9.0 * th
  {
    if tw / th > StoryRatio {
      calc {
        16.0 * tw;
        == 16.0 * (tw / th) * th;
        > 16.0 * StoryRatio * th;
        == 9.0 * th;
      }
    } else {
      calc {
        16.0 * tw;
        == 16.0 * (tw / th) * th;
        <= 16.0 * StoryRatio * th;
        == 9.0 * th;
      }
    }
  }

  /** The capped width and height that every format draws the image at. */
  function ScaledW(img: ImageSize): Dim {
    img.width * ScaleFactor(img.width, img.height)
  }

  function ScaledH(img: ImageSize): Dim {
    img.height * ScaleFactor(img.width, img.height)
  }

  /**
   * Canvas size and draw rectangle for an image already scaled to tw x th.
   * Any format string other than "square" or "story" takes the fallback branch.
   */
  function Place(tw: Dim, th: Dim, format: string): (g: Layout)
    ensures g.dW == tw && g.dH == th
  {
    if format == "square" then
      var side := Min(tw, th);
      Layout(side, side, (side - tw) / 2.0, (side - th) / 2.0, tw, th)
    else if format == "story" then
      var cw := if StoryIsWide(tw, th) then th * StoryRatio else tw;
      var ch := if StoryIsWide(tw, th) then th else tw / StoryRatio;
      Layout(cw, ch, (cw - tw) / 2.0, (ch - th) / 2.0, tw, th)
    else
      Layout(tw, th, 0.0, 0.0, tw, th)
  }

  /** The geometry block of `drawCanvas`: cap the image, then place it for the format. */
  function Resolve(img: ImageSize, format: string): (g: Layout)
    ensures g.dW == ScaledW(img) && g.dH == ScaledH(img)
  {
    Place(ScaledW(img), ScaledH(img), format)
  }

  /** The part of the scaled image that the canvas shows after clipping. */
  function VisibleRegion(g: Layout): Rect {
    Rect(-g.dx, -g.dy, g.canvasW, g.canvasH)
  }

  /** For a longer side m and a shorter side k, the factor 1024/m maps m to 1024 and k to at most 1024. */
  lemma CapLonger(m: real, k: real)
    requires 0.0 <= k <= m && m > MaxSize
    ensures m * (MaxSize / m) == MaxSize
    ensures 0.0 <= k * (MaxSize / m) <= MaxSize
    ensures k * (MaxSize / m) <= k
  {
    var f := MaxSize / m;
    assert 0.0 < f < 1.0;
    assert k * f <= m * f;
  }

  /**
   * The cap: beyond 1024 px both sides shrink by one factor so that the longer
   * is exactly 1024; otherwise nothing is scaled. The aspect ratio survives.
   */
  lemma SizeCap(img: ImageSize)
    ensures img.width > MaxSize || img.height > MaxSize ==>
              Max(ScaledW(img), ScaledH(img)) == MaxSize
              && ScaledW(img) <= img.width && ScaledH(img) <= img.height
    ensures !(img.width > MaxSize || img.height > MaxSize) ==>
              ScaledW(img) == img.width && ScaledH(img) == img.height
    ensures 0.0 <= ScaledW(img) <= MaxSize && 0.0 <= ScaledH(img) <= MaxSize
    ensures ScaledW(img) * img.height == ScaledH(img) * img.width
  {
    var w, h := img.width, img.height;
    var s := ScaleFactor(w, h);
    CapFacts(w, h, s, ScaledW(img), ScaledH(img));
  }

  lemma CapFacts(w: Dim, h: Dim, s: real, sw: real, sh: real)
    requires 0.0 < s <= 1.0
    requires (w > MaxSize || h > MaxSize) ==> s == MaxSize / Max(w, h)
    requires !(w > MaxSize || h > MaxSize) ==> s == 1.0
    requires sw == w * s && sh == h * s
    ensures w > MaxSize || h > MaxSize ==> Max(sw, sh) == MaxSize && sw <= w && sh <= h
    ensures !(w > MaxSize || h > MaxSize) ==> sw == w && sh == h
    ensures 0.0 <= sw <= MaxSize && 0.0 <= sh <= MaxSize
    ensures sw * h == sh * w
  {
    if w > MaxSize || h > MaxSize {
      CappedSides(w, h, s, sw, sh);
    }
    SameFactor(w, h, s);
  }

  lemma CappedSides(w: Dim, h: Dim, s: real, sw: real, sh: real)
    requires w > MaxSize || h > MaxSize
    requires s == MaxSize / Max(w, h)
    requires sw == w * s && sh == h * s
    ensures Max(sw, sh) == MaxSize && sw <= w && sh <= h
  {
    if w >= h {
      CapLonger(w, h);
    } else {
      CapLonger(h, w);
    }
  }

  lemma SameFactor(w: real, h: real, s: real)
    ensures (w * s) * h == (h * s) * w
  {
  }

  /** Fallback (including unknown format strings): canvas is the scaled image, drawn at the origin. */
  lemma OriginalLayout(img: ImageSize, format: string)
    requires format != "square" && format != "story"
    ensures var g := Resolve(img, format);
      g.canvasW == ScaledW(img) && g.canvasH == ScaledH(img) && g.dx == 0.0 && g.dy == 0.0
  {
  }

  /** Square: the largest square inside the scaled image, with the image centred behind it. */
  lemma SquareLayout(img: ImageSize)
    ensures var g := Resolve(img, "square");
      && g.canvasW == g.canvasH == Min(ScaledW(img), ScaledH(img))
      && g.dx <= 0.0 && g.dy <= 0.0
      && 2.0 * g.dx + g.dW == g.canvasW && 2.0 * g.dy + g.dH == g.canvasH
  {
  }

  /** No square that fits inside the scaled image is larger than the square canvas. */
  lemma SquareIsLargest(img: ImageSize, side: real)
    requires side <= ScaledW(img) && side <= ScaledH(img)
    ensures side <= Resolve(img, "square").canvasW
  {
  }

  /**
   * Story: a 9:16 canvas inside the scaled image, touching it on one side,
   * with the image centred behind it. Zero-sized images give an empty canvas.
   */
  lemma StoryLayout(img: ImageSize)
    ensures var g := Resolve(img, "story");
      && g.canvasW * 16.0 == g.canvasH * 9.0
      && 0.0 <= g.canvasW <= g.dW && 0.0 <= g.canvasH <= g.dH
      && (g.canvasW == g.dW || g.canvasH == g.dH)
      && g.dx <= 0.0 && g.dy <= 0.0
      && 2.0 * g.dx + g.dW == g.canvasW && 2.0 * g.dy + g.dH == g.canvasH
  {
    StoryPlacement(ScaledW(img), ScaledH(img));
  }

  lemma StoryPlacement(tw: Dim, th: Dim)
    ensures var g := Place(tw, th, "story");
      && g.canvasW * 16.0 == g.canvasH * 9.0
      && 0.0 <= g.canvasW <= tw && 0.0 <= g.canvasH <= th
      && (g.canvasW == tw || g.canvasH == th)
      && g.dx <= 0.0 && g.dy <= 0.0
      && 2.0 * g.dx + tw == g.canvasW && 2.0 * g.dy + th == g.canvasH
  {
  }

  /** No 9:16 rectangle that fits inside the scaled image is wider than the story canvas. */
  lemma StoryIsLargest(img: ImageSize, cw: real, ch: real)
    requires 0.0 <= cw <= ScaledW(img) && ch <= ScaledH(img)
    requires cw * 16.0 == ch * 9.0
    ensures cw <= Resolve(img, "story").canvasW
  {
    StoryPlacement(ScaledW(img), ScaledH(img));
  }

  /**
   * For every format the canvas is fully covered by the drawn image: what it
   * shows is a centred sub-rectangle of the scaled image, the same picture a
   * centred source crop would give, and never any letterboxing.
   */
  lemma ClipIsCentredCrop(img: ImageSize, format: string)
    ensures var g := Resolve(img, format); var r := VisibleRegion(g);
      && 0.0 <= r.x && 0.0 <= r.y && r.x + r.w <= g.dW && r.y + r.h <= g.dH
      && r.x == g.dW - (r.x + r.w) && r.y == g.dH - (r.y + r.h)
      && r.w == g.canvasW && r.h == g.canvasH
  {
    if format == "story" {
      StoryLayout(img);
    } else if format == "square" {
      SquareLayout(img);
    }
  }

  /** A 2000 x 1000 photo in square format is first capped to 1024 x 512, then cut to 512 x 512. */
  lemma SquareScenario()
    ensures var g := Resolve(ImageSize(2000.0, 1000.0), "square");
      g.canvasW == 512.0 && g.canvasH == 512.0 && g.dx == -256.0 && g.dy == 0.0
  {
    var img := ImageSize(2000.0, 1000.0);
    assert ScaleFactor(img.width, img.height) == 1024.0 / 2000.0;
  }
}

=== FILE: settings.dfy ===
/**
 * The editor's settings record and the whole-record transitions on it:
 * applying a named preset, resetting, and the download guard.
 */
module Settings {
  import opened Base
  import opened Geometry

  /**
   * One snapshot of the global `state` object. The filter fields are integral
   * percentages; `format` is the raw tag of the pressed format button.
   */
  datatype Settings = Settings(
    image: Option<ImageSize>,
    topText: string,
    bottomText: string,
    brightness: int,
    contrast: int,
    grayscale: bool,
    saturation: int,
    sepia: int,
    fontFamily: string,
    textColor: string,
    format: string)

  /**
   * The state before any image is loaded or any control is touched: no image,
   * no captions, the "normal" preset's look, and the original format.
   */
  function Initial(): (s: Settings)
    ensures s.image.None? && s.topText == "" && s.bottomText == ""
    ensures LookOf(s) == PresetLook(Normal)
    ensures s.format == "original"
  {
    Settings(None, "", "", 100, 100, false, 100, 0, "Anton", "#ffffff", "original")
  }

  /** The five fields a preset overrides. */
  datatype Look = Look(brightness: int, contrast: int, saturation: int, sepia: int, grayscale: bool)

  datatype Preset = Cyberpunk | Vintage | Cinematic | Normal

  /** The values each preset stores; every preset switches grayscale off. */
  function PresetLook(p: Preset): (l: Look)
    ensures !l.grayscale
  {
    match p
    case Cyberpunk => Look(110, 130, 200, 0, false)
    case Vintage => Look(90, 80, 80, 60, false)
    case Cinematic => Look(80, 140, 90, 0, false)
    case Normal => Look(100, 100, 100, 0, false)
  }

  /** The key under which a preset is stored in the `presets` table. */
  function PresetName(p: Preset): string {
    match p
    case Cyberpunk => "cyberpunk"
    case Vintage => "vintage"
    case Cinematic => "cinematic"
    case Normal => "normal"
  }

  /** The four keys are distinct, and each finds its own preset. */
  lemma PresetNameLookup(p: Preset)
    ensures LookupPreset(PresetName(p)) == Some(p)
    ensures forall q: Preset :: PresetName(q) == PresetName(p) ==> q == p
  {
  }

  /** Looks a button's `data-preset` tag up in the table. */
  function LookupPreset(name: string): (r: Option<Preset>)
    ensures r.Some? ==> PresetName(r.value) == name
    ensures r.None? ==> forall p: Preset :: PresetName(p) != name
  {
    if name == "cyberpunk" then Some(Cyberpunk)
    else if name == "vintage" then Some(Vintage)
    else if name == "cinematic" then Some(Cinematic)
    else if name == "normal" then Some(Normal)
    else None
  }

  /** The look that `s` currently shows. */
  function LookOf(s: Settings): Look {
    Look(s.brightness, s.contrast, s.saturation, s.sepia, s.grayscale)
  }

  /** Whether `s` and `t` agree on every field a preset does not touch. */
  predicate SameExceptLook(s: Settings, t: Settings) {
    && s.image == t.image
    && s.topText == t.topText
    && s.bottomText == t.bottomText
    && s.fontFamily == t.fontFamily
    && s.textColor == t.textColor
    && s.format == t.format
  }

  /** `{ ...state, ...presets[p] }`. */
  function ApplyPreset(s: Settings, p: Preset): (r: Settings)
    ensures LookOf(r) == PresetLook(p)
    ensures SameExceptLook(r, s)
  {
    var l := PresetLook(p);
    s.(brightness := l.brightness, contrast := l.contrast, saturation := l.saturation,
       sepia := l.sepia, grayscale := l.grayscale)
  }

  /**
   * A preset button click. An unknown tag spreads `undefined`, which changes
   * nothing (the handler then fails before asking for a redraw).
   */
  function ApplyPresetNamed(s: Settings, name: string): (r: Settings)
    ensures LookupPreset(name).None? ==> r == s
    ensures LookupPreset(name).Some? ==> LookOf(r) == PresetLook(LookupPreset(name).value)
    ensures SameExceptLook(r, s)
  {
    match LookupPreset(name)
    case Some(p) => ApplyPreset(s, p)
    case None => s
  }

  /** The reset button: every field back to its initial value except the loaded image. */
  function Reset(s: Settings): (r: Settings)
    ensures r == Initial().(image := s.image)
  {
    s.(topText := "", bottomText := "",
       brightness := 100, contrast := 100, saturation := 100, sepia := 0, grayscale := false,
       fontFamily := "Anton", textColor := "#ffffff", format := "original")
  }

  datatype ExportError = NoImageLoaded

  const FilePrefix: string := "kromaflow-"
  const FileSuffix: string := ".png"

  /** The download guard: no image, no file; otherwise the file is named after the format. */
  function DownloadName(s: Settings): (r: Result<string, ExportError>)
    ensures r.Err? <==> s.image.None?
    ensures r.Ok? ==> |r.value| == |FilePrefix| + |s.format| + |FileSuffix|
    ensures r.Ok? ==> r.value[..|FilePrefix|] == FilePrefix
    ensures r.Ok? ==> r.value[|r.value| - |FileSuffix|..] == FileSuffix
  {
    if s.image.None? then Err(NoImageLoaded)
    else Ok(FilePrefix + s.format + FileSuffix)
  }

  /** Recovers the format tag from a downloaded file's name. */
  function FormatOfFileName(name: string): Option<string> {
    if |name| >= |FilePrefix| + |FileSuffix|
       && name[..|FilePrefix|] == FilePrefix
       && name[|name| - |FileSuffix|..] == FileSuffix
    then Some(name[|FilePrefix|..|name| - |FileSuffix|])
    else None
  }

  /** The file name identifies the format it was exported in. */
  lemma DownloadNameRoundTrip(s: Settings)
    requires s.image.Some?
    ensures DownloadName(s).Ok? && FormatOfFileName(DownloadName(s).value) == Some(s.format)
  {
    var n := DownloadName(s).value;
    assert n[|FilePrefix|..|n| - |FileSuffix|] == s.format;
  }

  /** Presets overwrite each other: only the last one applied matters. */
  lemma PresetLastWins(s: Settings, p: Preset, q: Preset)
    ensures ApplyPreset(ApplyPreset(s, p), q) == ApplyPreset(s, q)
  {
  }

  /** Each preset's table entry is a complete look: applying it twice is applying it once. */
  lemma PresetIdempotent(s: Settings, p: Preset)
    ensures ApplyPreset(ApplyPreset(s, p), p) == ApplyPreset(s, p)
  {
  }

  /** After a reset the look is exactly the "normal" preset's. */
  lemma ResetShowsNormalLook(s: Settings)
    ensures ApplyPreset(Reset(s), Normal) == Reset(s)
    ensures LookOf(Reset(s)) == PresetLook(Normal)
  {
  }

  /** Reset forgets all history except the image: two states reset alike exactly when they share an image. */
  lemma ResetForgetsHistory(s: Settings, t: Settings)
    ensures Reset(s) == Reset(t) <==> s.image == t.image
  {
    if Reset(s) == Reset(t) {
      assert Reset(s).image == s.image && Reset(t).image == t.image;
    }
  }

  lemma ResetIdempotent(s: Settings)
    ensures Reset(Reset(s)) == Reset(s)
  {
  }

  /** "vintage" applied over an arbitrary state. */
  lemma VintageScenario(s: Settings)
    ensures var r := ApplyPresetNamed(s, "vintage");
      && r.brightness == 90 && r.contrast == 80 && r.saturation == 80 && r.sepia == 60 && !r.grayscale
      && r.topText == s.topText && r.bottomText == s.bottomText
      && r.fontFamily == s.fontFamily && r.textColor == s.textColor && r.format == s.format
  {
  }
}

=== FILE: throttle.dfy ===
/**
 * The redraw throttle: the flags `isDrawing` and `drawingScheduled`, driven by
 * `requestDraw` and by the entry and exit of `drawCanvas`. Animation frames
 * the host has been asked for but has not yet run are counted in `queued`.
 */
module Throttle {

  datatype Throttle = Throttle(isDrawing: bool, scheduled: bool, queued: nat, hasImage: bool)

  /** `requestDraw`: while drawing, only remember that another pass is wanted; otherwise ask for a frame. */
  function Request(t: Throttle): (r: Throttle)
    ensures t.isDrawing ==> r == t.(scheduled := true)
    ensures !t.isDrawing ==> r == t.(queued := t.queued + 1)
  {
    if t.isDrawing then t.(scheduled := true) else t.(queued := t.queued + 1)
  }

  /**
   * A queued frame runs `drawCanvas`: without an image it returns at once and
   * leaves both flags alone; otherwise it marks a pass in progress.
   */
  function FrameFires(t: Throttle): (r: Throttle)
    requires t.queued > 0
    ensures r.queued == t.queued - 1 && r.hasImage == t.hasImage && r.scheduled == t.scheduled
    ensures !t.hasImage ==> r.isDrawing == t.isDrawing
    ensures t.hasImage ==> r.isDrawing
  {
    var t' := t.(queued := t.queued - 1);
    if !t.hasImage then t' else t'.(isDrawing := true)
  }

  /**
   * The `finally` block of `drawCanvas`: the pass is over, and a pass asked
   * for meanwhile is turned into exactly one new frame request.
   */
  function Finish(t: Throttle): (r: Throttle)
    requires t.isDrawing
    ensures !r.isDrawing && !r.scheduled && r.hasImage == t.hasImage
    ensures r.queued == t.queued + (if t.scheduled then 1 else 0)
  {
    var t' := t.(isDrawing := false);
    if t'.scheduled then Request(t'.(scheduled := false)) else t'
  }

  /** The image becoming available, followed by the loader's `requestDraw`. */
  function ImageLoaded(t: Throttle): (r: Throttle)
    ensures t.isDrawing ==> r == t.(hasImage := true, scheduled := true)
    ensures !t.isDrawing ==> r == t.(hasImage := true, queued := t.queued + 1)
  {
    Request(t.(hasImage := true))
  }

  datatype Event = RequestEv | FrameEv | FinishEv | LoadEv

  predicate Enabled(t: Throttle, e: Event) {
    match e
    case FrameEv => t.queued > 0
    case FinishEv => t.isDrawing
    case _ => true
  }

  function Step(t: Throttle, e: Event): Throttle
    requires Enabled(t, e)
  {
    match e
    case RequestEv => Request(t)
    case FrameEv => FrameFires(t)
    case FinishEv => Finish(t)
    case LoadEv => ImageLoaded(t)
  }

  /** A pending pass is only ever recorded while a pass is running. */
  predicate Inv(t: Throttle) {
    t.scheduled ==> t.isDrawing
  }

  lemma StepPreservesInv(t: Throttle, e: Event)
    requires Inv(t) && Enabled(t, e)
    ensures Inv(Step(t, e))
  {
  }

  /** Whether every event of `es` is enabled when it arrives, starting from `t`. */
  predicate Feasible(t: Throttle, es: seq<Event>)
    decreases |es|
  {
    |es| == 0 || (Enabled(t, es[0]) && Feasible(Step(t, es[0]), es[1..]))
  }

  function Play(t: Throttle, es: seq<Event>): Throttle
    requires Feasible(t, es)
    decreases |es|
  {
    if |es| == 0 then t else Play(Step(t, es[0]), es[1..])
  }

  /** The invariant holds after any feasible sequence of events. */
  lemma {:induction false} PlayPreservesInv(t: Throttle, es: seq<Event>)
    requires Inv(t) && Feasible(t, es)
    ensures Inv(Play(t, es))
    decreases |es|
  {
    if |es| > 0 {
      StepPreservesInv(t, es[0]);
      PlayPreservesInv(Step(t, es[0]), es[1..]);
    }
  }

  /** `n` calls of `requestDraw` in a row. */
  function Requests(t: Throttle, n: nat): Throttle
    decreases n
  {
    if n == 0 then t else Requests(Request(t), n - 1)
  }

  /**
   * Requests while a pass runs fold into one: however many arrive, finishing
   * the pass asks for exactly one more frame, so none is lost and none is doubled.
   */
  lemma {:induction false} RequestsWhileDrawingFold(t: Throttle, n: nat)
    requires t.isDrawing && n >= 1
    ensures Requests(t, n).isDrawing && Requests(t, n).queued == t.queued
    ensures Finish(Requests(t, n)).queued == t.queued + 1
    ensures !Finish(Requests(t, n)).isDrawing
    decreases n
  {
    if n > 1 {
      RequestsWhileDrawingFold(Request(t), n - 1);
    }
  }

  /** Requests while idle are not coalesced: each one asks the host for its own frame. */
  lemma {:induction false} RequestsWhileIdleQueue(t: Throttle, n: nat)
    requires !t.isDrawing
    ensures Requests(t, n) == t.(queued := t.queued + n)
    decreases n
  {
    if n > 0 {
      RequestsWhileIdleQueue(Request(t), n - 1);
    }
  }

  // ---------------------------------------------------------------------------
  // Run-to-completion

  /**
   * The whole of one `drawCanvas` call. JavaScript runs it without
   * interruption, so no request can arrive between its entry and its exit.
   */
  function Tick(t: Throttle): (r: Throttle)
    requires t.queued > 0
    ensures r.hasImage == t.hasImage
    ensures !t.isDrawing && !t.scheduled ==> !r.isDrawing && !r.scheduled && r.queued == t.queued - 1
  {
    var entered := FrameFires(t);
    if entered.isDrawing then Finish(entered) else entered
  }

  /**
   * The run-to-completion alphabet: one `Draw` is a `FrameEv` immediately
   * followed by its `FinishEv`, since nothing can interleave with a running
   * `drawCanvas`.
   */
  datatype Input = Req | Draw | Load

  predicate TickFeasible(t: Throttle, xs: seq<Input>)
    decreases |xs|
  {
    |xs| == 0 || (
      match xs[0]
      case Req => TickFeasible(Request(t), xs[1..])
      case Load => TickFeasible(ImageLoaded(t), xs[1..])
      case Draw => t.queued > 0 && TickFeasible(Tick(t), xs[1..]))
  }

  function TickPlay(t: Throttle, xs: seq<Input>): Throttle
    requires TickFeasible(t, xs)
    decreases |xs|
  {
    if |xs| == 0 then t
    else match xs[0]
      case Req => TickPlay(Request(t), xs[1..])
      case Load => TickPlay(ImageLoaded(t), xs[1..])
      case Draw => TickPlay(Tick(t), xs[1..])
  }

  function CountOf(xs: seq<Input>, x: Input): nat
    decreases |xs|
  {
    if |xs| == 0 then 0 else (if xs[0] == x then 1 else 0) + CountOf(xs[1..], x)
  }

  /**
   * Under run-to-completion, between events both flags are always down, and
   * the frames outstanding are exactly the requests (including the loader's)
   * not yet served: every request costs one full pass.
   */
  lemma {:induction false} RunToCompletion(t: Throttle, xs: seq<Input>)
    requires !t.isDrawing && !t.scheduled
    requires TickFeasible(t, xs)
    ensures !TickPlay(t, xs).isDrawing && !TickPlay(t, xs).scheduled
    ensures TickPlay(t, xs).queued + CountOf(xs, Draw) == t.queued + CountOf(xs, Req) + CountOf(xs, Load)
    decreases |xs|
  {
    if |xs| > 0 {
      match xs[0]
      case Req => RunToCompletion(Request(t), xs[1..]);
      case Load => RunToCompletion(ImageLoaded(t), xs[1..]);
      case Draw => RunToCompletion(Tick(t), xs[1..]);
    }
  }
}
